=== FILE: README.md ===
# Healthcare appointment booking — verified model of the form and list logic

This project models, in Dafny, the state logic under the React appointment-booking UI:

- **AppointmentForm** (`appointment_form.dfy`): the five-field draft (`patient`, `doctor`, `date`,
  `time`, `reason`), the per-field error map, required-field validation with its fixed messages,
  `handleChange`, the `isFormComplete` gate, the create payload (status forced to `REQUESTED`), and
  the submission lifecycle Editing → Submitting → Success (draft cleared) | Failed (draft kept),
  plus the submit-disabled rule and the success/error styling of the message banner.
- **AppointmentList** (`appointment_list.dfy`): the mount-time reference-data load, the patient
  filter ("" means show nothing) and the fetch it triggers, the view choice (loading, empty marker,
  table), doctor-name resolution with the `'Unknown'` fallback, the Approve/Reject buttons offered
  only on `REQUESTED` rows, and the in-place status update.
- **MockApi** (`mock_api.dfy`): the data-access layer as shipped — fixed patients and doctors, one
  canned patient (`'1'`) with two appointments, and create/update calls that always resolve.
- **Scenarios** (`scenarios.dfy`): the list and form driven end to end against the mock.

Shared pieces: `Wrappers` (`Option`, and `Outcome` = how an asynchronous call settled:
`Success(value)` or `Failure(message)`), `Appointments` (the `Status` enum and the `Patient`,
`Doctor`, `Appointment` records), and `Strings` (JavaScript's `String.prototype.includes`, proved
equal to a reference definition of substring containment).

Every asynchronous call is a parameter of the step that consumes its result: the model never
performs I/O. A `null` result (`data || []`) is `None`; a rejection whose error object has no (or an empty)
message is `Failure("")`; a rejection with no error object at all is not modelled (see "## Left out"). React's `useState`/`useEffect` become pure step functions over immutable state
records: `SelectPatient` is the filter change plus the synchronous half of its effect, `FinishLoad`
the half that runs when the fetch settles; `BeginSubmit`/`FinishSubmit` split `handleSubmit` the
same way.

Points where the model follows JavaScript semantics and the component's code where a reader might expect otherwise:

- Validation uses JavaScript truthiness: only `""` is empty, a value of blanks passes.
- The doctor label is `'Unknown'` also when the first matching doctor has an empty name
  (`?.name || 'Unknown'`).
- The filter effect runs only when the selected value changes, so re-selecting the current value
  does nothing.
- Approve/Reject rewrite every row with the clicked id, and the rewrite runs when the update
  settles, without re-checking the row's status; nothing disables the buttons while an update is
  pending. With unique ids, whatever the interleaving of presses and settlements
  (`InterleavedUpdatesEvolveFromStart`, `TerminalStaysTerminal`), no row ever returns to REQUESTED, and a row that was
  already APPROVED/REJECTED before any update was pending never changes. The row at risk is one
  that becomes APPROVED/REJECTED while another update for its id is still pending:
  `OverlappingPressesRewriteApproved` shows Approve then Reject, pressed before either settles,
  moving a row APPROVED -> REJECTED. When each update settles before the next press, every row only
  leaves REQUESTED (`PressesOnlyLeaveRequested`). `DuplicateIdsRewriteTerminalRows` shows a
  duplicated id rewriting an APPROVED row.
- The banner is styled by its text: any message containing `"success"` gets the `success` class, including a
  server failure message such as `"Booking unsuccessful"`.

## Model

| member | source | states |
|---|---|---|
| Appointments.StatusNameInjective | src/components/AppointmentList.js:111-113 | two statuses have the same displayed string exactly when they are the same status, so comparing the enum is comparing the strings the row shows and the guard tests |
| Strings.IncludesIffOccurs | reactapp/src/components/AppointmentForm.js:169 | the left-to-right `includes` scan is true exactly when the substring occurs at some index |
| AppointmentForm.WithField | reactapp/src/components/AppointmentForm.js:37-40 | the edited field takes the new value and the four others keep theirs |
| AppointmentForm.RequiredMessage | reactapp/src/components/AppointmentForm.js:51-55 | every required-field message is non-empty, so each recorded error is shown |
| AppointmentForm.IsComplete | reactapp/src/components/AppointmentForm.js:90 | the form is complete exactly when every one of the five fields is a non-empty string (blanks count as filled) |
| AppointmentForm.ValidationErrors | reactapp/src/components/AppointmentForm.js:49-57 | the error map has a key exactly for each empty field, carrying that field's fixed message |
| AppointmentForm.ValidationErrorsEmptyIffComplete | reactapp/src/components/AppointmentForm.js:58 | the error map is empty (has no keys) exactly when the form is complete |
| AppointmentForm.Validate | reactapp/src/components/AppointmentForm.js:49-58 | validation passes exactly when the form is complete, and exactly when the map is empty |
| AppointmentForm.HandleChange | reactapp/src/components/AppointmentForm.js:35-47 | only the edited field changes; its error, if truthy, is blanked with the key kept; every other error entry, the message and the submitting flag are unchanged |
| AppointmentForm.PayloadOf | reactapp/src/components/AppointmentForm.js:67-74 | the payload carries the draft's five values (date and time renamed) with status REQUESTED |
| AppointmentForm.PayloadOfInjective | reactapp/src/components/AppointmentForm.js:67-74 | two drafts give the same payload exactly when they are equal: nothing is lost |
| AppointmentForm.FailureMessage | reactapp/src/components/AppointmentForm.js:84 | a rejection shows its own message when it has one, else "Server error"; never an empty message |
| AppointmentForm.BeginSubmit | reactapp/src/components/AppointmentForm.js:61-65 | the errors become the validation map; create is called (with the payload, entering Submitting) exactly when the form is complete; otherwise the submitting flag is untouched |
| AppointmentForm.FinishSubmit | reactapp/src/components/AppointmentForm.js:75-87 | submitting ends in both outcomes; success clears the draft and shows the booked message; failure keeps the draft and shows the failure message |
| AppointmentForm.Submit | reactapp/src/components/AppointmentForm.js:61-88 | an incomplete draft only stores the validation errors and makes no create call; a complete one sends the payload, ends with no errors and not submitting, cleared on success and kept on failure |
| AppointmentForm.SubmitDisabled | reactapp/src/components/AppointmentForm.js:176 | the button is disabled exactly when some field is empty or a submission is in flight |
| AppointmentForm.EnabledSubmitCallsCreate | reactapp/src/components/AppointmentForm.js:176 | whenever the button is enabled, submitting passes validation and calls create |
| AppointmentForm.StyleOf | reactapp/src/components/AppointmentForm.js:168-169 | no banner for an empty message; otherwise success style exactly when the text contains "success", error style otherwise |
| AppointmentForm.BookedMessageStyledSuccess | reactapp/src/components/AppointmentForm.js:75 | the booking confirmation is shown in the success style |
| AppointmentForm.ServerErrorStyledError | reactapp/src/components/AppointmentForm.js:84 | the generic "Server error" fallback is shown in the error style |
| AppointmentList.LoadInitialData | src/components/AppointmentList.js:18-32 | when both loads resolve the lists are stored (null as empty); if either rejects the lists stay as they were and the error is "Failed to load initial data" |
| AppointmentList.FailedInitialLoadKeepsListsEmpty | src/components/AppointmentList.js:12-29 | from the initial state a failed load leaves patients and doctors empty and the error "Failed to load initial data" |
| AppointmentList.SelectPatient | src/components/AppointmentList.js:34-44 | a change to "" clears the list with no fetch; a change to a patient starts loading, clears the error and fetches that patient; an unchanged value does nothing |
| AppointmentList.FinishLoad | src/components/AppointmentList.js:44-51 | loading ends; success replaces the list (null as empty); failure clears it and sets "Failed to load appointments" |
| AppointmentList.ApplyFilter | src/components/AppointmentList.js:34-54 | patients and doctors are never touched; re-selecting the current value changes nothing; choosing "" empties the list and keeps the loading flag and error; selecting a new patient ends not loading, with the fetched list and no error or, on failure, an empty list and the error |
| AppointmentList.UpdateStatus | src/components/AppointmentList.js:59-61 | the length is kept; every row with the id gets the new status with its other fields kept; every other row is unchanged |
| AppointmentList.UpdateStatusKeepsIds | src/components/AppointmentList.js:59-61 | each row keeps its id, so unique ids stay unique |
| AppointmentList.UpdateStatusIdempotent | src/components/AppointmentList.js:59-61 | applying the same update twice equals applying it once |
| AppointmentList.UpdateStatusAbsentId | src/components/AppointmentList.js:59-61 | an id no row carries leaves the list unchanged |
| AppointmentList.HandleStatusChange | src/components/AppointmentList.js:56-65 | success rewrites the matching rows in place and nothing else; failure keeps the list and sets "Failed to update appointment status" |
| AppointmentList.Actions | src/components/AppointmentList.js:113-121 | a row offers a target status exactly when moving its status to that target is an allowed transition (REQUESTED to APPROVED or REJECTED); terminal rows offer none |
| AppointmentList.FindDoctor | src/components/AppointmentList.js:109 | finds the first doctor with the id, or none exactly when no doctor has it |
| AppointmentList.DoctorLabel | src/components/AppointmentList.js:109 | the label is the first matching doctor's name, or "Unknown" if that name is empty or no doctor has the id; never empty |
| AppointmentList.Rows | src/components/AppointmentList.js:105-125 | one row per appointment, in list order |
| AppointmentList.Render | src/components/AppointmentList.js:86-92 | the banner shows exactly when the error is non-empty; loading wins; else the empty marker exactly for an empty list; else a table with one row per appointment |
| AppointmentList.Click | src/components/AppointmentList.js:113-121 | pressing a shown button keeps patients, doctors, selection, loading flag and length; a failed update leaves every row as it was and sets "Failed to update appointment status"; with unique ids only the pressed row changes, to the target status on success |
| AppointmentList.RunPresses | src/components/AppointmentList.js:113-121 | presses whose updates settle one at a time never change the loading flag or the list length |
| AppointmentList.PressesOnlyLeaveRequested | src/components/AppointmentList.js:56-65 | with unique ids and each update settling before the next press, each row is unchanged or moved REQUESTED to APPROVED/REJECTED, and terminal rows never change |
| AppointmentList.Step | src/components/AppointmentList.js:56-61 | a press on a shown button (guard read at press time) leaves the list untouched and appends (row id, target) to the pending updates, any other press changes nothing; settling pending entry k removes exactly that entry and, on success, sets the target on exactly the rows carrying its id in the list as it is then, on failure only sets the update error; neither changes the loading flag or the list length |
| AppointmentList.Run | src/components/AppointmentList.js:56-61 | any interleaving of presses and settlements keeps the loading flag and the list length |
| AppointmentList.StepKeepsSessionInv | src/components/AppointmentList.js:56-61 | one press or settlement keeps every row evolved from its starting row and every pending update aimed at a terminal status on a row that started REQUESTED; a row that is APPROVED/REJECTED before the event still is after it |
| AppointmentList.TerminalStaysTerminal | src/components/AppointmentList.js:56-61 | from any session state reached from unique ids, a row that is APPROVED/REJECTED stays APPROVED/REJECTED after any further presses and settlements: no row returns to REQUESTED |
| AppointmentList.RunKeepsSessionInv | src/components/AppointmentList.js:56-61 | the same invariant holds after any sequence of presses and settlements |
| AppointmentList.InterleavedUpdatesEvolveFromStart | src/components/AppointmentList.js:56-65 | with unique ids and any interleaving, every row ends as it started or as its REQUESTED start moved to APPROVED/REJECTED; rows that started terminal never change |
| AppointmentList.OverlappingPressesRewriteApproved | src/components/AppointmentList.js:58-61 | Approve then Reject pressed on one REQUESTED row before either settles move it to APPROVED and then from APPROVED to REJECTED |
| AppointmentList.DuplicateIdsRewriteTerminalRows | src/components/AppointmentList.js:59-60 | with a duplicated id, rejecting the REQUESTED row also rewrites an APPROVED row |
| MockApi.AppointmentsFor | reactapp/src/utils/api.js:27-52 | only the exact string "1" yields appointments, all for patient 1; every other id yields none |
| MockApi.FetchAppointmentsByPatient | reactapp/src/utils/api.js:27-52 | always resolves with a non-null list, the one the mock holds for that id |
| MockApi.CreateAppointment | reactapp/src/utils/api.js:17-20 | always resolves |
| MockApi.UpdateAppointmentStatus | reactapp/src/utils/api.js:22-25 | always resolves |
| MockApi.FetchPatients | reactapp/src/utils/api.js:1-7 | always resolves, non-null, with two patients of ids 1 and 2 |
| MockApi.FetchDoctors | reactapp/src/utils/api.js:9-15 | always resolves, non-null, with two named doctors of ids 1 and 2 |
| MockApi.PatientOneAppointmentsShape | reactapp/src/utils/api.js:29-49 | patient "1" has appointments 101 (REQUESTED) and 102 (APPROVED), ids unique |
| Scenarios.MockDoctorsResolveEveryAppointment | reactapp/src/utils/api.js:11-14 | every doctor referenced by mock appointments resolves, so "Unknown" never appears for mock data |
| Scenarios.PatientOneShowsTwoRows | src/components/AppointmentList.js:88-125 | patient "1" fetches and shows two rows; only the REQUESTED row has Approve/Reject |
| Scenarios.PatientTwoShowsEmptyMarker | src/tests/AppointmentForm.test.js:112-116 | patient "2" shows the empty-state marker and no table |
| Scenarios.ApproveFirstRow | src/components/AppointmentList.js:56-61 | approving row 101 updates it in place, leaves row 102 alone and removes its buttons |
| Scenarios.ClearingFilterEmptiesList | src/components/AppointmentList.js:35-38 | returning to "All Patients" clears the list with no fetch and shows the empty marker |
| Scenarios.EmptyFormReportsEveryField | reactapp/src/components/AppointmentForm.js:49-63 | submitting the empty form shows an error on all five fields and makes no create call |
| Scenarios.FilledFormBooks | src/tests/AppointmentForm.test.js:80-101 | a filled form is enabled, books with status REQUESTED, shows the success-styled message and clears the reason |
| Scenarios.FailedBookingKeepsDraft | src/tests/AppointmentForm.test.js:87-93 | a rejected booking shows "Server error" in error style and keeps every field |
| Scenarios.FailureMentioningSuccessLooksSuccessful | reactapp/src/components/AppointmentForm.js:169 | a failure whose message contains "success" keeps the draft but is styled as success |

## Left out

- AppointmentForm.FailureMessage: assumes every rejection of `createAppointment` carries an object reason. A rejection with no reason or a `null` one makes the `error.message` read at reactapp/src/components/AppointmentForm.js:84 throw; the `finally` still clears the submitting flag but the message keeps its previous value, which the model does not represent (it shows "Server error").
- AppointmentList.PressesOnlyLeaveRequested: assumes each status update settles before the next button press. With overlapping presses a row can move APPROVED -> REJECTED (`OverlappingPressesRewriteApproved`); only the weaker `InterleavedUpdatesEvolveFromStart` holds for every interleaving.
- AppointmentList.InterleavedUpdatesEvolveFromStart: covers presses and settlements only. A filter change or fetch that replaces the list while updates are pending is not part of the session model.
- The form's own patient/doctor load (reactapp/src/components/AppointmentForm.js:19-33): it only fills the selector options, and its failure is only logged to the console.
- React scheduling: `useState` batching, `useEffect` timing and the concurrency of `Promise.all`; the two reference loads are combined as "both resolved, or the catch branch".
- The stale-fetch race on filter changes: a late fetch result can overwrite newer state. There is no guard in the code to verify; `FinishLoad` applies whatever settles.
- Rendering: JSX, CSS, option lists, labels, the "Booking..." button caption and the error banner's placeholder text. Only the abstract view choice, the row contents and whether the banner shows are modelled.
- Routing and shells (src/App.js, reactapp/src/App.js, src/components/LandingPage.js): navigation and composition only.
- The other app tree's copies of the form and list: only reactapp/src/components/AppointmentForm.js and src/components/AppointmentList.js are modelled, and the copies in the other tree are not claimed to behave the same.
- The test at src/tests/AppointmentForm.test.js:67-71 expects an enabled button on an empty form. That contradicts the shown component's rule at line 176, which the model follows.
- JavaScript value types: ids are integers and the filter value is a string. Comparisons between numbers and strings are not modelled.

=== FILE: appointment_form.dfy ===
/** The appointment booking form: a five-field draft, required-field validation,
    per-field editing and the submission lifecycle
    Editing -> Submitting -> Success (draft cleared) | Failed (draft kept). */
module AppointmentForm {
  import opened Wrappers
  import opened Appointments
  import Strings

  datatype Field = PatientField | DoctorField | DateField | TimeField | ReasonField

  /** The draft: every field is the raw string the input holds. */
  datatype Draft = Draft(patient: string, doctor: string, date: string, time: string, reason: string) {

    function Get(f: Field): string {
      match f
      case PatientField => patient
      case DoctorField => doctor
      case DateField => date
      case TimeField => time
      case ReasonField => reason
    }
  }

  const EmptyDraft := Draft("", "", "", "", "")

  /** `{ ...draft, [f]: v }` */
  function WithField(d: Draft, f: Field, v: string): (r: Draft)
    ensures r.Get(f) == v
    ensures forall g :: g != f ==> r.Get(g) == d.Get(g)
  {
    match f
    case PatientField => d.(patient := v)
    case DoctorField => d.(doctor := v)
    case DateField => d.(date := v)
    case TimeField => d.(time := v)
    case ReasonField => d.(reason := v)
  }

  /** Field name -> error message. A key may map to "", which renders no error. */
  type Errors = map<Field, string>

  /** The error entry of `f` is truthy, so the field shows an error. */
  predicate HasError(e: Errors, f: Field) {
    f in e && e[f] != ""
  }

  function RequiredMessage(f: Field): (m: string)
    ensures m != ""
  {
    match f
    case PatientField => "Patient is required"
    case DoctorField => "Doctor is required"
    case DateField => "Date is required"
    case TimeField => "Time is required"
    case ReasonField => "Reason is required"
  }

  /** `isFormComplete`: the conjunction of the five fields' JavaScript truthiness. Only ""
      is falsy, so a value made of blanks counts as filled. */
  predicate IsComplete(d: Draft): (complete: bool)
    ensures complete <==> forall f :: d.Get(f) != ""
  {
    EmptyFieldNamed(d);
    d.patient != "" && d.doctor != "" && d.date != "" && d.time != "" && d.reason != ""
  }

  /** An empty record field is the empty value of the `Field` that names it. */
  lemma EmptyFieldNamed(d: Draft)
    ensures (d.patient == "" || d.doctor == "" || d.date == "" || d.time == "" || d.reason == "") ==>
      exists f :: d.Get(f) == ""
  {
    if d.patient == "" { assert d.Get(PatientField) == ""; }
    else if d.doctor == "" { assert d.Get(DoctorField) == ""; }
    else if d.date == "" { assert d.Get(DateField) == ""; }
    else if d.time == "" { assert d.Get(TimeField) == ""; }
    else if d.reason == "" { assert d.Get(ReasonField) == ""; }
  }

  /** The error map `validateForm` builds: one fixed message for each empty field, and nothing else. */
  function ValidationErrors(d: Draft): (e: Errors)
    ensures forall f :: f in e <==> d.Get(f) == ""
    ensures forall f :: f in e ==> e[f] == RequiredMessage(f)
  {
    var e0: Errors := map[];
    var e1 := if d.patient == "" then e0[PatientField := RequiredMessage(PatientField)] else e0;
    var e2 := if d.doctor == "" then e1[DoctorField := RequiredMessage(DoctorField)] else e1;
    var e3 := if d.date == "" then e2[DateField := RequiredMessage(DateField)] else e2;
    var e4 := if d.time == "" then e3[TimeField := RequiredMessage(TimeField)] else e3;
    if d.reason == "" then e4[ReasonField := RequiredMessage(ReasonField)] else e4
  }

  /** The error map is empty exactly when every field is filled. */
  lemma ValidationErrorsEmptyIffComplete(d: Draft)
    ensures ValidationErrors(d) == map[] <==> IsComplete(d)
    ensures |ValidationErrors(d)| == 0 <==> IsComplete(d)
  {
  }

  /** The verdict of `validateForm`: the error map has no keys. */
  function Validate(d: Draft): (ok: bool)
    ensures ok <==> IsComplete(d)
    ensures ok <==> ValidationErrors(d) == map[]
  {
    ValidationErrorsEmptyIffComplete(d);
    |ValidationErrors(d)| == 0
  }

  /** The form component's logical state. */
  datatype FormState = FormState(draft: Draft, errors: Errors, message: string, isSubmitting: bool)

  const InitialForm := FormState(EmptyDraft, map[], "", false)

  /** `handleChange`: the edited field takes the new value; its error, if it showed one,
      is blanked; nothing else changes. */
  function HandleChange(s: FormState, f: Field, v: string): (r: FormState)
    ensures r.draft.Get(f) == v
    ensures forall g :: g != f ==> r.draft.Get(g) == s.draft.Get(g)
    ensures !HasError(r.errors, f)
    ensures r.errors.Keys == s.errors.Keys
    ensures forall g :: g != f && g in s.errors ==> r.errors[g] == s.errors[g]
    ensures !HasError(s.errors, f) ==> r.errors == s.errors
    ensures r.message == s.message && r.isSubmitting == s.isSubmitting
  {
    var errors := if HasError(s.errors, f) then s.errors[f := ""] else s.errors;
    s.(draft := WithField(s.draft, f, v), errors := errors)
  }

  /** Reads the draft back out of a payload. */
  function DraftOf(p: CreatePayload): Draft {
    Draft(p.patient, p.doctor, p.appointmentDate, p.appointmentTime, p.reason)
  }

  /** The create payload: the draft's fields, `date`/`time` renamed, status forced to REQUESTED. */
  function PayloadOf(d: Draft): (p: CreatePayload)
    ensures p.status == REQUESTED
    ensures DraftOf(p) == d
  {
    CreatePayload(d.patient, d.doctor, d.date, d.time, d.reason, REQUESTED)
  }

  /** Different drafts never produce the same payload. */
  lemma PayloadOfInjective(d1: Draft, d2: Draft)
    ensures PayloadOf(d1) == PayloadOf(d2) <==> d1 == d2
  {
  }

  const BookedMessage := "Appointment successfully booked"
  const ServerErrorMessage := "Server error"

  /** `error.message || 'Server error'`. */
  function FailureMessage(m: string): (r: string)
    ensures r != ""
    ensures m != "" ==> r == m
    ensures m == "" ==> r == ServerErrorMessage
  {
    if m == "" then ServerErrorMessage else m
  }

  /** A submission: the state it leaves, and the payload passed to `createAppointment`
      (`None` when the call was never made). */
  datatype Submission = Submission(state: FormState, request: Option<CreatePayload>)

  /** The synchronous part of `handleSubmit`: validate, store the error map, and either
      stop or enter Submitting with the create payload. */
  function BeginSubmit(s: FormState): (r: Submission)
    ensures r.state.errors == ValidationErrors(s.draft)
    ensures r.request.Some? <==> IsComplete(s.draft)
    ensures r.request.Some? ==> r.request.value == PayloadOf(s.draft) && r.state.isSubmitting
    ensures r.request.None? ==> r.state.isSubmitting == s.isSubmitting
    ensures r.state.draft == s.draft && r.state.message == s.message
  {
    var validated := s.(errors := ValidationErrors(s.draft));
    if !Validate(s.draft) then Submission(validated, None)
    else Submission(validated.(isSubmitting := true), Some(PayloadOf(s.draft)))
  }

  /** The part of `handleSubmit` after `createAppointment` settles. */
  function FinishSubmit(s: FormState, created: Outcome<()>): (r: FormState)
    ensures !r.isSubmitting
    ensures r.errors == s.errors
    ensures created.Success? ==> r.draft == EmptyDraft && r.message == BookedMessage
    ensures created.Failure? ==> r.draft == s.draft && r.message == FailureMessage(created.message)
  {
    match created
    case Success(_) => s.(message := BookedMessage, draft := EmptyDraft, isSubmitting := false)
    case Failure(m) => s.(message := FailureMessage(m), isSubmitting := false)
  }

  /** `handleSubmit` with the create call settling as `created` (ignored if it is never made). */
  function Submit(s: FormState, created: Outcome<()>): (r: Submission)
    ensures r.state.errors == ValidationErrors(s.draft)
    ensures r.request.Some? <==> IsComplete(s.draft)
    ensures !IsComplete(s.draft) ==> r.state == s.(errors := ValidationErrors(s.draft))
    ensures IsComplete(s.draft) ==>
      && r.request == Some(PayloadOf(s.draft))
      && r.state.errors == map[]
      && !r.state.isSubmitting
      && (created.Success? ==> r.state.draft == EmptyDraft && r.state.message == BookedMessage)
      && (created.Failure? ==> r.state.draft == s.draft && r.state.message == FailureMessage(created.message))
  {
    var begun := BeginSubmit(s);
    if begun.request.None? then begun
    else Submission(FinishSubmit(begun.state, created), begun.request)
  }

  /** The submit button's `disabled` attribute. */
  predicate SubmitDisabled(s: FormState): (disabled: bool)
    ensures disabled <==> (exists f :: s.draft.Get(f) == "") || s.isSubmitting
  {
    !IsComplete(s.draft) || s.isSubmitting
  }

  /** Whenever the button can be pressed, validation passes and the create call is made. */
  lemma EnabledSubmitCallsCreate(s: FormState, created: Outcome<()>)
    requires !SubmitDisabled(s)
    ensures Submit(s, created).request == Some(PayloadOf(s.draft))
    ensures Submit(s, created).state.errors == map[]
  {
  }

  /** How the message banner is rendered. */
  datatype MessageStyle = NoBanner | SuccessBanner | ErrorBanner

  /** The banner shows only for a non-empty message, styled "success" exactly when the
      message contains the substring "success". */
  function StyleOf(m: string): (st: MessageStyle)
    ensures st == NoBanner <==> m == ""
    ensures st == SuccessBanner <==> m != "" && Strings.Occurs(m, "success")
    ensures st == ErrorBanner <==> m != "" && !Strings.Occurs(m, "success")
  {
    Strings.IncludesIffOccurs(m, "success");
    if m == "" then NoBanner
    else if Strings.Includes(m, "success") then SuccessBanner
    else ErrorBanner
  }

  /** The booking confirmation is shown in the success style. */
  lemma BookedMessageStyledSuccess()
    ensures StyleOf(BookedMessage) == SuccessBanner
  {
    assert Strings.OccursAt(BookedMessage, "success", 12);
  }

  /** The generic failure message is shown in the error style. */
  lemma ServerErrorStyledError()
    ensures StyleOf(ServerErrorMessage) == ErrorBanner
  {
    forall i | 0 <= i && i + 7 <= |ServerErrorMessage|
      ensures !Strings.OccursAt(ServerErrorMessage, "success", i)
    {
      assert ServerErrorMessage[i..i + 7][0] == ServerErrorMessage[i];
    }
  }
}

=== FILE: appointment_list.dfy ===
/** The appointment list: reference-data load, the patient filter and its fetch,
    the rendered view, and the Approve/Reject status actions. */
module AppointmentList {
  import opened Wrappers
  import opened Appointments

  /** The list component's logical state. `selectedPatient` is the filter's raw
      string value; "" means no patient is selected and nothing is shown. */
  datatype ListState = ListState(
    appointments: seq<Appointment>,
    patients: seq<Patient>,
    doctors: seq<Doctor>,
    selectedPatient: string,
    isLoading: bool,
    error: string)

  const InitialList := ListState([], [], [], "", false, "")

  const InitialLoadError := "Failed to load initial data"
  const LoadAppointmentsError := "Failed to load appointments"
  const UpdateStatusError := "Failed to update appointment status"

  // ---------------------------------------------------------------------------
  // Reference data

  /** The mount-time load of patients and doctors. Both calls run under one `Promise.all`:
      the lists are stored (a null result as empty) only when both resolve; if either
      rejects, the lists are left as they were and the error is set. */
  function LoadInitialData(
    s: ListState,
    patientsRes: Outcome<Option<seq<Patient>>>,
    doctorsRes: Outcome<Option<seq<Doctor>>>): (r: ListState)
    ensures r.appointments == s.appointments && r.selectedPatient == s.selectedPatient
    ensures r.isLoading == s.isLoading
    ensures patientsRes.Success? && doctorsRes.Success? ==>
      && r.patients == patientsRes.value.GetOr([])
      && r.doctors == doctorsRes.value.GetOr([])
      && r.error == s.error
    ensures patientsRes.Failure? || doctorsRes.Failure? ==>
      r.patients == s.patients && r.doctors == s.doctors && r.error == InitialLoadError
  {
    match (patientsRes, doctorsRes)
    case (Success(ps), Success(ds)) => s.(patients := ps.GetOr([]), doctors := ds.GetOr([]))
    case _ => s.(error := InitialLoadError)
  }

  /** A failed first load leaves both selectors empty and reports the error. */
  lemma FailedInitialLoadKeepsListsEmpty(
    patientsRes: Outcome<Option<seq<Patient>>>,
    doctorsRes: Outcome<Option<seq<Doctor>>>)
    requires patientsRes.Failure? || doctorsRes.Failure?
    ensures LoadInitialData(InitialList, patientsRes, doctorsRes).patients == []
    ensures LoadInitialData(InitialList, patientsRes, doctorsRes).doctors == []
    ensures LoadInitialData(InitialList, patientsRes, doctorsRes).error == InitialLoadError
  {
  }

  // ---------------------------------------------------------------------------
  // Patient filter

  /** What the filter effect asks of the data-access layer. */
  datatype Effect = NoFetch | FetchFor(patientId: string)

  datatype FilterChange = FilterChange(state: ListState, effect: Effect)

  /** Selecting `p` in the filter, followed by the synchronous part of the effect that
      depends on it. The effect runs only when the value actually changes. For "" the
      list is cleared at once and nothing is fetched; otherwise loading starts, the
      error is cleared and `fetchAppointmentsByPatient(p)` is issued. */
  function SelectPatient(s: ListState, p: string): (r: FilterChange)
    ensures r.state.selectedPatient == p
    ensures r.state.patients == s.patients && r.state.doctors == s.doctors
    ensures p == s.selectedPatient ==> r == FilterChange(s, NoFetch)
    ensures p != s.selectedPatient && p == "" ==>
      && r.effect == NoFetch
      && r.state.appointments == []
      && r.state.isLoading == s.isLoading && r.state.error == s.error
    ensures p != s.selectedPatient && p != "" ==>
      && r.effect == FetchFor(p)
      && r.state.isLoading && r.state.error == ""
      && r.state.appointments == s.appointments
  {
    if p == s.selectedPatient then FilterChange(s, NoFetch)
    else if p == "" then FilterChange(s.(selectedPatient := p, appointments := []), NoFetch)
    else FilterChange(s.(selectedPatient := p, isLoading := true, error := ""), FetchFor(p))
  }

  /** The appointment fetch settling: on success the list is replaced (a null result as
      empty); on failure it is cleared and the error set; loading ends either way. */
  function FinishLoad(s: ListState, fetched: Outcome<Option<seq<Appointment>>>): (r: ListState)
    ensures !r.isLoading
    ensures r.patients == s.patients && r.doctors == s.doctors
    ensures r.selectedPatient == s.selectedPatient
    ensures fetched.Success? ==> r.appointments == fetched.value.GetOr([]) && r.error == s.error
    ensures fetched.Failure? ==> r.appointments == [] && r.error == LoadAppointmentsError
  {
    match fetched
    case Success(apps) => s.(appointments := apps.GetOr([]), isLoading := false)
    case Failure(_) => s.(appointments := [], error := LoadAppointmentsError, isLoading := false)
  }

  /** Selecting `p` and letting the fetch it issues (if any) settle as `fetched`. */
  function ApplyFilter(s: ListState, p: string, fetched: Outcome<Option<seq<Appointment>>>): (r: ListState)
    ensures r.selectedPatient == p
    ensures r.patients == s.patients && r.doctors == s.doctors
    ensures p == s.selectedPatient ==> r == s
    ensures p != s.selectedPatient && p == "" ==>
      r.appointments == [] && r.isLoading == s.isLoading && r.error == s.error
    ensures p != s.selectedPatient && p != "" ==> !r.isLoading
    ensures p != s.selectedPatient && p != "" && fetched.Success? ==>
      r.appointments == fetched.value.GetOr([]) && r.error == ""
    ensures p != s.selectedPatient && p != "" && fetched.Failure? ==>
      r.appointments == [] && r.error == LoadAppointmentsError
  {
    var change := SelectPatient(s, p);
    if change.effect.FetchFor? then FinishLoad(change.state, fetched) else change.state
  }

  // ---------------------------------------------------------------------------
  // Status updates

  /** `prev.map(app => app.id === id ? { ...app, status: st } : app)` */
  function UpdateStatus(apps: seq<Appointment>, id: int, st: Status): (r: seq<Appointment>)
    ensures |r| == |apps|
    ensures forall i :: 0 <= i < |apps| && apps[i].id == id ==> r[i] == apps[i].(status := st)
    ensures forall i :: 0 <= i < |apps| && apps[i].id != id ==> r[i] == apps[i]
    decreases |apps|
  {
    if apps == [] then []
    else
      var head := if apps[0].id == id then apps[0].(status := st) else apps[0];
      var rest := UpdateStatus(apps[1..], id, st);
      assert forall i :: 1 <= i < |apps| ==> ([head] + rest)[i] == rest[i - 1];
      [head] + rest
  }

  /** Updating keeps every id in its place, so unique ids stay unique. */
  lemma UpdateStatusKeepsIds(apps: seq<Appointment>, id: int, st: Status)
    ensures forall i :: 0 <= i < |apps| ==> UpdateStatus(apps, id, st)[i].id == apps[i].id
    ensures UniqueIds(apps) ==> UniqueIds(UpdateStatus(apps, id, st))
  {
  }

  /** Applying the same update twice is the same as applying it once. */
  lemma UpdateStatusIdempotent(apps: seq<Appointment>, id: int, st: Status)
    ensures UpdateStatus(UpdateStatus(apps, id, st), id, st) == UpdateStatus(apps, id, st)
  {
  }

  /** An id no row carries leaves the list as it was. */
  lemma UpdateStatusAbsentId(apps: seq<Appointment>, id: int, st: Status)
    requires forall i :: 0 <= i < |apps| ==> apps[i].id != id
    ensures UpdateStatus(apps, id, st) == apps
  {
  }

  /** `handleStatusChange(id, st)` with `updateAppointmentStatus` settling as `updated`.
      Success rewrites the matching rows in place, without a fetch; failure keeps the
      list and sets the error. */
  function HandleStatusChange(s: ListState, id: int, st: Status, updated: Outcome<()>): (r: ListState)
    ensures r.patients == s.patients && r.doctors == s.doctors
    ensures r.selectedPatient == s.selectedPatient && r.isLoading == s.isLoading
    ensures |r.appointments| == |s.appointments|
    ensures updated.Success? ==>
      && r.error == s.error
      && (forall i :: 0 <= i < |s.appointments| && s.appointments[i].id == id ==>
            r.appointments[i] == s.appointments[i].(status := st))
      && (forall i :: 0 <= i < |s.appointments| && s.appointments[i].id != id ==>
            r.appointments[i] == s.appointments[i])
    ensures updated.Failure? ==> r.appointments == s.appointments && r.error == UpdateStatusError
  {
    match updated
    case Success(_) => s.(appointments := UpdateStatus(s.appointments, id, st))
    case Failure(_) => s.(error := UpdateStatusError)
  }

  // ---------------------------------------------------------------------------
  // Rendering

  /** The statuses a row's buttons move it to: Approve and Reject on a REQUESTED row,
      none on any other. */
  function Actions(st: Status): (targets: seq<Status>)
    ensures forall t :: t in targets <==> ValidTransition(st, t)
    ensures IsTerminal(st) ==> targets == []
  {
    if st == REQUESTED then [APPROVED, REJECTED] else []
  }

  /** The index of the first doctor whose id is `id` (`doctors.find`). */
  function FindDoctor(doctors: seq<Doctor>, id: int): (r: Option<nat>)
    ensures r.Some? ==> r.value < |doctors| && doctors[r.value].id == id
    ensures r.Some? ==> forall j :: 0 <= j < r.value ==> doctors[j].id != id
    ensures r.None? <==> forall j :: 0 <= j < |doctors| ==> doctors[j].id != id
    decreases |doctors|
  {
    if doctors == [] then None
    else if doctors[0].id == id then Some(0)
    else match FindDoctor(doctors[1..], id)
      case None => None
      case Some(k) => Some(k + 1)
  }

  const UnknownDoctor := "Unknown"

  /** `doctors.find(d => d.id === id)?.name || 'Unknown'`: the name of the first doctor with
      the id, unless there is none or that name is empty. */
  function DoctorLabel(doctors: seq<Doctor>, id: int): (name: string)
    ensures (forall j :: 0 <= j < |doctors| ==> doctors[j].id != id) ==> name == UnknownDoctor
    ensures forall k :: 0 <= k < |doctors| && doctors[k].id == id && (forall j :: 0 <= j < k ==> doctors[j].id != id) ==>
      name == if doctors[k].name != "" then doctors[k].name else UnknownDoctor
    ensures name != ""
  {
    match FindDoctor(doctors, id)
    case Some(k) => if doctors[k].name != "" then doctors[k].name else UnknownDoctor
    case None => UnknownDoctor
  }

  datatype Row = Row(
    appointmentDate: string,
    appointmentTime: string,
    doctorLabel: string,
    reason: string,
    status: string,
    actions: seq<Status>)

  function RowOf(doctors: seq<Doctor>, a: Appointment): Row {
    Row(a.appointmentDate, a.appointmentTime, DoctorLabel(doctors, a.doctor), a.reason, StatusName(a.status), Actions(a.status))
  }

  /** `appointments.map(...)`: one row per appointment, in list order. */
  function Rows(doctors: seq<Doctor>, apps: seq<Appointment>): (rows: seq<Row>)
    ensures |rows| == |apps|
    ensures forall i :: 0 <= i < |apps| ==> rows[i] == RowOf(doctors, apps[i])
    decreases |apps|
  {
    if apps == [] then [] else [RowOf(doctors, apps[0])] + Rows(doctors, apps[1..])
  }

  datatype Body = Loading | NoAppointments | Table(rows: seq<Row>)

  /** What the component shows: whether the error banner is up, and its body. */
  datatype View = View(errorBanner: bool, body: Body)

  /** Loading wins over everything; else an empty list shows the empty-state marker;
      else the table. */
  function Render(s: ListState): (v: View)
    ensures v.errorBanner <==> s.error != ""
    ensures v.body == Loading <==> s.isLoading
    ensures v.body == NoAppointments <==> !s.isLoading && s.appointments == []
    ensures v.body.Table? <==> !s.isLoading && s.appointments != []
    ensures v.body.Table? ==>
      && |v.body.rows| == |s.appointments|
      && forall i :: 0 <= i < |s.appointments| ==> v.body.rows[i] == RowOf(s.doctors, s.appointments[i])
  {
    var body :=
      if s.isLoading then Loading
      else if |s.appointments| == 0 then NoAppointments
      else Table(Rows(s.doctors, s.appointments));
    View(s.error != "", body)
  }

  // ---------------------------------------------------------------------------
  // Status actions reachable from the UI

  /** A button for `target` exists on row `row`: the table is shown and the row offers it. */
  predicate CanClick(s: ListState, row: int, target: Status) {
    !s.isLoading && 0 <= row < |s.appointments| && target in Actions(s.appointments[row].status)
  }

  /** Pressing that button: `handleStatusChange(row.id, target)`. */
  function Click(s: ListState, row: int, target: Status, updated: Outcome<()>): (r: ListState)
    requires CanClick(s, row, target)
    ensures r.patients == s.patients && r.doctors == s.doctors
    ensures r.selectedPatient == s.selectedPatient && r.isLoading == s.isLoading
    ensures |r.appointments| == |s.appointments|
    ensures updated.Failure? ==> r.appointments == s.appointments && r.error == UpdateStatusError
    ensures UniqueIds(s.appointments) ==>
      && UniqueIds(r.appointments)
      && (updated.Success? ==> r.appointments[row] == s.appointments[row].(status := target))
      && (forall j :: 0 <= j < |s.appointments| && j != row ==> r.appointments[j] == s.appointments[j])
  {
    UpdateStatusKeepsIds(s.appointments, s.appointments[row].id, target);
    HandleStatusChange(s, s.appointments[row].id, target, updated)
  }

  /** A row either stays as it was or has left REQUESTED for APPROVED or REJECTED,
      every other field untouched. */
  predicate Evolved(before: Appointment, after: Appointment) {
    before == after || (ValidTransition(before.status, after.status) && after == before.(status := after.status))
  }

  datatype Press = Press(row: int, target: Status, updated: Outcome<()>)

  /** A sequence of button presses, each update settling before the next press; a press on
      a button that is not shown does nothing. */
  function RunPresses(s: ListState, presses: seq<Press>): (r: ListState)
    ensures r.isLoading == s.isLoading
    ensures |r.appointments| == |s.appointments|
    decreases |presses|
  {
    if presses == [] then s
    else
      var p := presses[0];
      var next := if CanClick(s, p.row, p.target) then Click(s, p.row, p.target, p.updated) else s;
      RunPresses(next, presses[1..])
  }

  /** With unique ids and each update settling before the next press, however the updates
      settle, every row only ever moves REQUESTED -> APPROVED or REQUESTED -> REJECTED, and a
      row that is APPROVED or REJECTED never changes. */
  lemma {:induction false} PressesOnlyLeaveRequested(s: ListState, presses: seq<Press>)
    requires UniqueIds(s.appointments)
    ensures UniqueIds(RunPresses(s, presses).appointments)
    ensures forall j :: 0 <= j < |s.appointments| ==>
      Evolved(s.appointments[j], RunPresses(s, presses).appointments[j])
    ensures forall j :: 0 <= j < |s.appointments| && IsTerminal(s.appointments[j].status) ==>
      RunPresses(s, presses).appointments[j] == s.appointments[j]
    decreases |presses|
  {
    if presses != [] {
      var p := presses[0];
      var next := if CanClick(s, p.row, p.target) then Click(s, p.row, p.target, p.updated) else s;
      PressesOnlyLeaveRequested(next, presses[1..]);
      var r := RunPresses(s, presses);
      assert r == RunPresses(next, presses[1..]);
      forall j | 0 <= j < |s.appointments|
        ensures Evolved(s.appointments[j], r.appointments[j])
      {
        assert Evolved(s.appointments[j], next.appointments[j]);
        assert Evolved(next.appointments[j], r.appointments[j]);
      }
    }
  }

  /** Without unique ids the guard is not enough: rejecting the REQUESTED row also
      rewrites an APPROVED row that shares its id. */
  lemma DuplicateIdsRewriteTerminalRows()
    ensures var a := Appointment(7, 1, 1, "2099-12-25", "09:00", "Checkup", REQUESTED);
            var b := a.(status := APPROVED);
            var s := InitialList.(appointments := [a, b]);
            CanClick(s, 0, REJECTED) && Click(s, 0, REJECTED, Success(())).appointments[1].status == REJECTED
  {
  }

  // ---------------------------------------------------------------------------
  // Presses and settlements interleaved

  /** An update in flight: the id and target a button captured when it was pressed. */
  datatype PendingUpdate = PendingUpdate(id: int, target: Status)

  /** The list together with the status updates still awaiting `updateAppointmentStatus`.
      The buttons stay live while updates are pending. */
  datatype Session = Session(list: ListState, pending: seq<PendingUpdate>)

  /** A button press (the guard is read from the state at press time), or the settling of
      the pending update at `index` (updates may settle in any order). */
  datatype UiEvent = Pressed(row: int, target: Status) | Settled(index: int, updated: Outcome<()>)

  /** One event of a session. A press on a shown button leaves the list alone and queues the
      row's id with the target at the end of `pending`; any other press does nothing. The
      settling of pending entry `k` removes exactly that entry and applies `handleStatusChange`
      to the list as it is at that moment: on success every row carrying the pending id, and
      only those, take the pending target; on failure only the error is set. */
  function Step(ss: Session, e: UiEvent): (r: Session)
    ensures r.list.isLoading == ss.list.isLoading
    ensures |r.list.appointments| == |ss.list.appointments|
    ensures e.Pressed? ==> r.list == ss.list
    ensures e.Pressed? && CanClick(ss.list, e.row, e.target) ==>
      r.pending == ss.pending + [PendingUpdate(ss.list.appointments[e.row].id, e.target)]
    ensures e.Pressed? && !CanClick(ss.list, e.row, e.target) ==> r == ss
    ensures e.Settled? && !(0 <= e.index < |ss.pending|) ==> r == ss
    ensures e.Settled? && 0 <= e.index < |ss.pending| ==>
      && |r.pending| == |ss.pending| - 1
      && r.pending == ss.pending[..e.index] + ss.pending[e.index + 1..]
      && r.list.patients == ss.list.patients && r.list.doctors == ss.list.doctors
      && r.list.selectedPatient == ss.list.selectedPatient
    ensures e.Settled? && 0 <= e.index < |ss.pending| && e.updated.Success? ==>
      && r.list.error == ss.list.error
      && (forall j :: 0 <= j < |ss.list.appointments| ==>
            r.list.appointments[j] == (if ss.list.appointments[j].id == ss.pending[e.index].id
                                       then ss.list.appointments[j].(status := ss.pending[e.index].target)
                                       else ss.list.appointments[j]))
    ensures e.Settled? && 0 <= e.index < |ss.pending| && e.updated.Failure? ==>
      r.list.appointments == ss.list.appointments && r.list.error == UpdateStatusError
  {
    match e
    case Pressed(row, target) =>
      if CanClick(ss.list, row, target)
      then Session(ss.list, ss.pending + [PendingUpdate(ss.list.appointments[row].id, target)])
      else ss
    case Settled(k, updated) =>
      if 0 <= k < |ss.pending|
      then Session(HandleStatusChange(ss.list, ss.pending[k].id, ss.pending[k].target, updated),
                   ss.pending[..k] + ss.pending[k + 1..])
      else ss
  }

  function Run(ss: Session, events: seq<UiEvent>): (r: Session)
    ensures r.list.isLoading == ss.list.isLoading
    ensures |r.list.appointments| == |ss.list.appointments|
    decreases |events|
  {
    if events == [] then ss else Run(Step(ss, events[0]), events[1..])
  }

  /** What holds of a session relative to the list `start` it began from: every row has
      evolved from its starting row, and every pending update targets a terminal status
      and an id whose starting row was REQUESTED. */
  ghost predicate SessionInv(start: seq<Appointment>, ss: Session) {
    && UniqueIds(start)
    && |ss.list.appointments| == |start|
    && (forall j :: 0 <= j < |start| ==> Evolved(start[j], ss.list.appointments[j]))
    && (forall p :: p in ss.pending ==> IsTerminal(p.target))
    && (forall p, j :: p in ss.pending && 0 <= j < |start| && start[j].id == p.id ==> start[j].status == REQUESTED)
  }

  lemma StepKeepsSessionInv(start: seq<Appointment>, ss: Session, e: UiEvent)
    requires SessionInv(start, ss)
    ensures SessionInv(start, Step(ss, e))
    ensures forall j :: 0 <= j < |ss.list.appointments| && IsTerminal(ss.list.appointments[j].status) ==>
      IsTerminal(Step(ss, e).list.appointments[j].status)
  {
    var apps := ss.list.appointments;
    match e
    case Pressed(row, target) =>
      if CanClick(ss.list, row, target) {
        assert apps[row].status == REQUESTED;
        assert Evolved(start[row], apps[row]);
        assert start[row] == apps[row];
      }
    case Settled(k, updated) =>
      if 0 <= k < |ss.pending| {
        var p := ss.pending[k];
        assert p in ss.pending;
        var r := Step(ss, e);
        forall j | 0 <= j < |start|
          ensures Evolved(start[j], r.list.appointments[j])
        {
          assert Evolved(start[j], apps[j]);
          if updated.Success? && apps[j].id == p.id {
            assert start[j].status == REQUESTED;
            assert r.list.appointments[j] == start[j].(status := p.target);
          }
        }
        forall q | q in r.pending
          ensures q in ss.pending
        {
          var i :| 0 <= i < |r.pending| && r.pending[i] == q;
          if i < k { assert q == ss.pending[i]; } else { assert q == ss.pending[i + 1]; }
        }
      }
  }

  lemma {:induction false} RunKeepsSessionInv(start: seq<Appointment>, ss: Session, events: seq<UiEvent>)
    requires SessionInv(start, ss)
    ensures SessionInv(start, Run(ss, events))
    decreases |events|
  {
    if events != [] {
      StepKeepsSessionInv(start, ss, events[0]);
      RunKeepsSessionInv(start, Step(ss, events[0]), events[1..]);
    }
  }

  /** Every pending update targets APPROVED or REJECTED, so once a row is terminal it stays
      terminal through any further presses and settlements: no row ever returns to REQUESTED. */
  lemma {:induction false} TerminalStaysTerminal(start: seq<Appointment>, ss: Session, events: seq<UiEvent>)
    requires SessionInv(start, ss)
    ensures forall j :: 0 <= j < |ss.list.appointments| && IsTerminal(ss.list.appointments[j].status) ==>
      IsTerminal(Run(ss, events).list.appointments[j].status)
    decreases |events|
  {
    if events != [] {
      StepKeepsSessionInv(start, ss, events[0]);
      TerminalStaysTerminal(start, Step(ss, events[0]), events[1..]);
    }
  }

  /** With unique ids, whatever the interleaving of presses and settlements, every row ends
      either as it started or as its starting REQUESTED row moved to APPROVED or REJECTED:
      no row returns to REQUESTED, and a row that started APPROVED or REJECTED never changes. */
  lemma InterleavedUpdatesEvolveFromStart(s: ListState, events: seq<UiEvent>)
    requires UniqueIds(s.appointments)
    ensures forall j :: 0 <= j < |s.appointments| ==>
      Evolved(s.appointments[j], Run(Session(s, []), events).list.appointments[j])
    ensures forall j :: 0 <= j < |s.appointments| && IsTerminal(s.appointments[j].status) ==>
      Run(Session(s, []), events).list.appointments[j] == s.appointments[j]
  {
    RunKeepsSessionInv(s.appointments, Session(s, []), events);
  }

  /** Overlapping presses are not guarded: pressing Approve and then Reject on the same
      REQUESTED row before either update settles moves it to APPROVED and then from
      APPROVED to REJECTED. */
  lemma OverlappingPressesRewriteApproved()
    ensures var a := Appointment(101, 1, 1, "2099-12-25", "09:00", "General Checkup", REQUESTED);
            var s := Session(InitialList.(appointments := [a]), []);
            var approved := Run(s, [Pressed(0, APPROVED), Pressed(0, REJECTED), Settled(0, Success(()))]);
            var rejected := Step(approved, Settled(0, Success(())));
            && approved.list.appointments[0].status == APPROVED
            && rejected.list.appointments[0].status == REJECTED
            && !Evolved(approved.list.appointments[0], rejected.list.appointments[0])
  {
    var a := Appointment(101, 1, 1, "2099-12-25", "09:00", "General Checkup", REQUESTED);
    var s := Session(InitialList.(appointments := [a]), []);
    var s1 := Step(s, Pressed(0, APPROVED));
    var s2 := Step(s1, Pressed(0, REJECTED));
    var s3 := Step(s2, Settled(0, Success(())));
    assert s2.pending == [PendingUpdate(101, APPROVED), PendingUpdate(101, REJECTED)];
    assert s3.pending == [PendingUpdate(101, REJECTED)];
    assert Run(s, [Pressed(0, APPROVED), Pressed(0, REJECTED), Settled(0, Success(()))]) == s3 by {
      assert Run(s2, [Settled(0, Success(()))]) == Run(s3, []);
    }
  }
}

=== FILE: appointments.dfy ===
/** The records exchanged with the appointment data-access layer. */
module Appointments {

  /** Appointment status. On the wire it is the string returned by `StatusName`. */
  datatype Status = REQUESTED | APPROVED | REJECTED

  function StatusName(s: Status): string {
    match s
    case REQUESTED => "REQUESTED"
    case APPROVED => "APPROVED"
    case REJECTED => "REJECTED"
  }

  /** Comparing statuses as strings, as the UI does, is the same as comparing them as values. */
  lemma StatusNameInjective(a: Status, b: Status)
    ensures StatusName(a) == StatusName(b) <==> a == b
  {
  }

  /** The only status changes the data model allows: out of REQUESTED into a terminal status. */
  predicate ValidTransition(from: Status, to: Status) {
    from == REQUESTED && (to == APPROVED || to == REJECTED)
  }

  predicate IsTerminal(s: Status) {
    s == APPROVED || s == REJECTED
  }

  datatype Patient = Patient(id: int, name: string)

  datatype Doctor = Doctor(id: int, name: string, specialization: string)

  /** `patient` and `doctor` reference `Patient.id` and `Doctor.id`. */
  datatype Appointment = Appointment(
    id: int,
    patient: int,
    doctor: int,
    appointmentDate: string,
    appointmentTime: string,
    reason: string,
    status: Status)

  /** The object handed to `createAppointment`. */
  datatype CreatePayload = CreatePayload(
    patient: string,
    doctor: string,
    appointmentDate: string,
    appointmentTime: string,
    reason: string,
    status: Status)

  /** Appointment ids identify appointments: no two rows of a list share one. */
  predicate UniqueIds(apps: seq<Appointment>) {
    forall i, j :: 0 <= i < |apps| && 0 <= j < |apps| && apps[i].id == apps[j].id ==> i == j
  }
}

=== FILE: mock_api.dfy ===
/** The data-access layer as it ships: fixed reference data, one canned patient with
    appointments, and create/update calls that always resolve with `{}`. */
module MockApi {
  import opened Wrappers
  import opened Appointments

  const MockPatients: seq<Patient> := [Patient(1, "Alice"), Patient(2, "Bob")]

  const MockDoctors: seq<Doctor> := [
    Doctor(1, "Dr. Smith", "Cardiology"),
    Doctor(2, "Dr. Jane", "Neurology")
  ]

  const PatientOneAppointments: seq<Appointment> := [
    Appointment(101, 1, 1, "2099-12-25", "09:00", "General Checkup", REQUESTED),
    Appointment(102, 1, 2, "2099-12-26", "10:30", "Follow-up", APPROVED)
  ]

  /** `fetchPatients`: resolves with two patients, ids 1 and 2. */
  function FetchPatients(): (r: Outcome<Option<seq<Patient>>>)
    ensures r.Success? && r.value.Some?
    ensures |r.value.value| == 2 && r.value.value[0].id == 1 && r.value.value[1].id == 2
  {
    Success(Some(MockPatients))
  }

  /** `fetchDoctors`: resolves with two doctors, ids 1 and 2, both named. */
  function FetchDoctors(): (r: Outcome<Option<seq<Doctor>>>)
    ensures r.Success? && r.value.Some?
    ensures |r.value.value| == 2 && r.value.value[0].id == 1 && r.value.value[1].id == 2
    ensures forall d :: d in r.value.value ==> d.name != ""
  {
    Success(Some(MockDoctors))
  }

  /** The appointments the mock holds for a filter value: only the exact string "1" has any. */
  function AppointmentsFor(patientId: string): (r: seq<Appointment>)
    ensures r != [] <==> patientId == "1"
    ensures forall a :: a in r ==> a.patient == 1
  {
    if patientId == "1" then PatientOneAppointments else []
  }

  /** `fetchAppointmentsByPatient`: always resolves, never with null. */
  function FetchAppointmentsByPatient(patientId: string): (r: Outcome<Option<seq<Appointment>>>)
    ensures r.Success? && r.value.Some?
    ensures r.value.value == AppointmentsFor(patientId)
  {
    Success(Some(AppointmentsFor(patientId)))
  }

  /** `createAppointment`: resolves whatever it is given. */
  function CreateAppointment(payload: CreatePayload): (r: Outcome<()>)
    ensures r.Success?
  {
    Success(())
  }

  /** `updateAppointmentStatus`: resolves whatever it is given. */
  function UpdateAppointmentStatus(id: int, st: Status): (r: Outcome<()>)
    ensures r.Success?
  {
    Success(())
  }

  /** Patient "1" has appointments 101 (REQUESTED) and 102 (APPROVED), ids unique. */
  lemma PatientOneAppointmentsShape()
    ensures |AppointmentsFor("1")| == 2
    ensures AppointmentsFor("1")[0].id == 101 && AppointmentsFor("1")[0].status == REQUESTED
    ensures AppointmentsFor("1")[1].id == 102 && AppointmentsFor("1")[1].status == APPROVED
    ensures UniqueIds(AppointmentsFor("1"))
  {
  }
}

=== FILE: scenarios.dfy ===
/** The list and form driven end to end against the mock data-access layer. */
module Scenarios {
  import opened Wrappers
  import opened Appointments
  import Strings
  import opened MockApi
  import opened AppointmentForm
  import opened AppointmentList

  /** The list after mount, with the reference data loaded from the mock. */
  function Mounted(): ListState {
    LoadInitialData(InitialList, FetchPatients(), FetchDoctors())
  }

  /** The list after selecting `p` and letting the mock answer. */
  function Filtered(p: string): ListState {
    ApplyFilter(Mounted(), p, FetchAppointmentsByPatient(p))
  }

  /** Every doctor the mock appointments reference is a mock doctor, so no row of mock
      data is ever labelled "Unknown". */
  lemma MockDoctorsResolveEveryAppointment(p: string)
    ensures forall a :: a in AppointmentsFor(p) ==>
      FindDoctor(MockDoctors, a.doctor).Some? && DoctorLabel(MockDoctors, a.doctor) != UnknownDoctor
  {
  }

  /** Patient "1" shows two rows in list order; only the REQUESTED one offers actions. */
  lemma PatientOneShowsTwoRows()
    ensures SelectPatient(Mounted(), "1").effect == FetchFor("1")
    ensures Render(Filtered("1")).body == Table([
      Row("2099-12-25", "09:00", "Dr. Smith", "General Checkup", "REQUESTED", [APPROVED, REJECTED]),
      Row("2099-12-26", "10:30", "Dr. Jane", "Follow-up", "APPROVED", [])
    ])
  {
  }

  /** Patient "2" has no appointments: the empty-state marker, no table. */
  lemma PatientTwoShowsEmptyMarker()
    ensures Render(Filtered("2")).body == NoAppointments
  {
  }

  /** Approving the REQUESTED row updates it in place; the APPROVED row is untouched
      and the approved row loses its buttons. */
  lemma ApproveFirstRow()
    ensures CanClick(Filtered("1"), 0, APPROVED)
    ensures var after := Click(Filtered("1"), 0, APPROVED, UpdateAppointmentStatus(101, APPROVED));
      && after.appointments[0].status == APPROVED
      && after.appointments[1] == Filtered("1").appointments[1]
      && Render(after).body.Table?
      && Render(after).body.rows[0].actions == []
  {
  }

  /** Going back to "All Patients" clears the list at once, without a fetch. */
  lemma ClearingFilterEmptiesList()
    ensures SelectPatient(Filtered("1"), "").effect == NoFetch
    ensures Render(SelectPatient(Filtered("1"), "").state).body == NoAppointments
  {
  }

  /** Submitting the empty form reports all five fields and never calls create. */
  lemma EmptyFormReportsEveryField(created: Outcome<()>)
    ensures Submit(InitialForm, created).request == None
    ensures forall f :: HasError(Submit(InitialForm, created).state.errors, f)
    ensures Submit(InitialForm, created).state.errors[PatientField] == "Patient is required"
  {
  }

  /** The draft the form holds after the user fills every field. */
  function FilledForm(): FormState {
    var s1 := HandleChange(InitialForm, PatientField, "1");
    var s2 := HandleChange(s1, DoctorField, "1");
    var s3 := HandleChange(s2, DateField, "2099-12-30");
    var s4 := HandleChange(s3, TimeField, "11:00");
    HandleChange(s4, ReasonField, "Valid Reason")
  }

  /** Filling the five fields in turn yields exactly that draft, with no errors shown. */
  lemma FilledFormContents()
    ensures FilledForm() == FormState(Draft("1", "1", "2099-12-30", "11:00", "Valid Reason"), map[], "", false)
  {
  }

  /** A successful booking shows the green success message and clears the reason. */
  lemma FilledFormBooks()
    ensures !SubmitDisabled(FilledForm())
    ensures var sub := Submit(FilledForm(), CreateAppointment(PayloadOf(FilledForm().draft)));
      && sub.request.Some? && sub.request.value.status == REQUESTED
      && sub.state.message == BookedMessage
      && sub.state.draft.reason == ""
      && sub.state.errors == map[]
      && StyleOf(sub.state.message) == SuccessBanner
  {
    FilledFormContents();
    BookedMessageStyledSuccess();
  }

  /** A rejected booking shows the error and keeps every field. */
  lemma FailedBookingKeepsDraft()
    ensures var sub := Submit(FilledForm(), Failure(ServerErrorMessage));
      && sub.state.message == ServerErrorMessage
      && sub.state.draft == FilledForm().draft
      && !sub.state.isSubmitting
      && StyleOf(sub.state.message) == ErrorBanner
  {
    FilledFormContents();
    ServerErrorStyledError();
  }

  /** The banner is styled by its text, not by the outcome: a failure whose message
      mentions "success" is shown in the success style. */
  lemma FailureMentioningSuccessLooksSuccessful()
    ensures var sub := Submit(FilledForm(), Failure("Booking unsuccessful"));
      sub.state.draft == FilledForm().draft && StyleOf(sub.state.message) == SuccessBanner
  {
    FilledFormContents();
    assert Strings.OccursAt("Booking unsuccessful", "success", 10);
  }
}

=== FILE: strings.dfy ===
/** The one string operation the UI relies on: JavaScript's `String.prototype.includes`. */
module Strings {

  /** `sub` occurs in `s` starting at index `i`. */
  ghost predicate OccursAt(s: string, sub: string, i: int) {
    0 <= i && i + |sub| <= |s| && s[i..i + |sub|] == sub
  }

  /** Reference definition of substring containment. */
  ghost predicate Occurs(s: string, sub: string) {
    exists i :: OccursAt(s, sub, i)
  }

  /** `s.includes(sub)`, scanning `s` from the left. */
  function Includes(s: string, sub: string): bool
    decreases |s|
  {
    if |sub| > |s| then false
    else if s[..|sub|] == sub then true
    else Includes(s[1..], sub)
  }

  /** An occurrence in the tail is an occurrence one place later in the whole. */
  lemma OccursInTail(s: string, sub: string, i: int)
    requires |s| > 0 && OccursAt(s[1..], sub, i)
    ensures OccursAt(s, sub, i + 1)
  {
  }

  /** An occurrence past the first index is an occurrence one place earlier in the tail. */
  lemma OccursPastHead(s: string, sub: string, i: int)
    requires OccursAt(s, sub, i) && i > 0
    ensures OccursAt(s[1..], sub, i - 1)
  {
  }

  /** The scan agrees with the reference definition on every input. */
  lemma {:induction false} IncludesIffOccurs(s: string, sub: string)
    ensures Includes(s, sub) <==> Occurs(s, sub)
    decreases |s|
  {
    if |sub| > |s| {
    } else if s[..|sub|] == sub {
      assert OccursAt(s, sub, 0);
    } else {
      IncludesIffOccurs(s[1..], sub);
      if Includes(s[1..], sub) {
        var i :| OccursAt(s[1..], sub, i);
        OccursInTail(s, sub, i);
      }
      if Occurs(s, sub) {
        var i :| OccursAt(s, sub, i);
        assert i != 0;
        OccursPastHead(s, sub, i);
      }
    }
  }
}

=== FILE: wrappers.dfy ===
/** Option and Outcome, shared by the whole model. */
module Wrappers {

  /** A value that may be absent; `None` stands for JavaScript's `null`/`undefined`. */
  datatype Option<+T> = None | Some(value: T) {

    /** The `value || default` idiom: the wrapped value, or `default` when absent. */
    function GetOr(default: T): T {
      match this
      case Some(v) => v
      case None => default
    }
  }

  /** The settled result of an asynchronous call: the promise resolved with `value`,
      or it was rejected with an error whose `message` is given ("" when it has none). */
  datatype Outcome<+T> = Success(value: T) | Failure(message: string)
}
